=== FILE: README.md ===
# twingly-url normalizer, modelled in Dafny

`Twingly::URL::Normalizer` turns URLs into a canonical text so that URLs
that mean the same page compare equal. `normalize_url` rewrites one URL;
`normalize` extracts every URL from a text or a list and maps
`normalize_url` over them in order.

The Ruby code leaves most of the work to three libraries. PostRank finds
the URLs. Domainatrix splits a host into subdomain, registrable domain and
public suffix. `URI` parses the URL and prints it back. Here those answers
are inputs. A `ParsedUrl` record carries the scheme (absent when the text
had none), the host's breakdown (`subdomain`, `domain`, `suffix`), the
path, and the optional query and fragment. Failure to parse is `None`.
The extractor's output is a plain `seq<string>`, and the parser is a
function parameter `parse: string -> Option<ParsedUrl>`.

`Normalizer.Canonicalize` is the rule chain. It runs in this order:

1. A host with an empty suffix (`http://www.twingly.`) is rejected.
2. A missing scheme becomes `http`. Scheme and host are folded to lower
   case. Path, query and fragment are left as they are.
3. If the registrable domain is `blogspot`, leading `www` labels leave the
   subdomain and the suffix becomes `com`.
4. Otherwise a host with no subdomain gets `www.` in front.
5. A path that is empty or only slashes becomes `/`. Any other path loses
   its trailing slashes.

`Normalizer.Render` prints the record back as
`scheme://host path ?query #fragment`.

Modules, one per concern:

- `Options`: the `Option` datatype.
- `Ascii`: ASCII lower-casing.
- `Paths`: the path rule.
- `Hosts`: the host breakdown and `www` stripping.
- `Normalizer`: the record, the rule chain, the batch operation and the
  properties.
- `Vectors`: the expected strings of the test file, proved for the
  records the parsers produce from the test inputs.

The Ruby `normalize_url` only does the `www` step (lines 22-27). A comment
marks the blogspot rule as still to do (line 6). The rest of the chain is
what the repository's test file asserts, and the model follows those
tests. Two consequences:

- The batch. The Ruby `normalize` maps without filtering
  (lib/twingly-url-normalizer.rb:12-14), so a URL that fails stays in
  place as `nil`. The model returns one `Option` per candidate.
- Trailing slashes. The tests strip every trailing slash (`/path//`
  becomes `/path`, spec/lib/twingly/url/normalization_spec.rb:107-112).
  The model strips them all.

One choice the tests leave open: the blogspot rule removes every leading
`www` label, not just one. The tests show only a single `www`. Removing
the whole run is what keeps the chain idempotent.

## Model

| member | source | states |
|---|---|---|
| `Normalizer.InsertWww` | lib/twingly-url-normalizer.rb:22-27 | an empty subdomain makes the host `www.` followed by the old host; with a subdomain present the URL is unchanged; scheme, path, query and fragment are never touched |
| `Normalizer.Normalize` | lib/twingly-url-normalizer.rb:11-15 | exactly one result per extracted candidate, in extraction order, each the normalisation of that candidate; no candidates gives `[]` |
| `Normalizer.NormalizeAppend` | spec/lib/twingly/url/normalization_spec.rb:20-36 | normalising candidates A then B gives A's result followed by B's, so order is kept across any split of the input |
| `Normalizer.NormalizeUrl` | spec/lib/twingly/url/normalization_spec.rb:226-229 | a result exists exactly when the text parsed as a URL and its host has a non-empty suffix; otherwise the result is absent, not an error |
| `Normalizer.Canonicalize` | spec/lib/twingly/url/normalization_spec.rb:121-125 | the chain accepts a URL exactly when its host's suffix is non-empty, so `http://www.twingly.` is rejected |
| `Normalizer.ApplyBlogspot` | spec/lib/twingly/url/normalization_spec.rb:139-151 | the host becomes the subdomain without its leading `www` labels, the same registrable domain, and the suffix `com`; the result has no leading `www` label; scheme, path, query and fragment are unchanged |
| `Normalizer.RewriteHost` | spec/lib/twingly/url/normalization_spec.rb:133-144 | the blogspot rule takes precedence over the www rule: a blogspot host only loses leading `www` labels and gets suffix `com`, never gains `www`; any other host without a subdomain gets the subdomain `www`, and one that had a subdomain is left unchanged |
| `Normalizer.CaseFold` | spec/lib/twingly/url/normalization_spec.rb:153-165 | the scheme is the given one or `http`, folded to lower case; the host is the lower-cased host; path, query and fragment are unchanged |
| `Normalizer.CaseFoldFixedIff` | spec/lib/twingly/url/normalization_spec.rb:160-171 | folding leaves a record unchanged exactly when its scheme is present and its scheme and host have no upper-case letter |
| `Normalizer.WwwInserted` | spec/lib/twingly/url/normalization_spec.rb:62-66 | a non-blogspot host without a subdomain comes out as `www.` plus the lower-cased host, with the same scheme, normalised path, query and fragment |
| `Normalizer.SubdomainKept` | spec/lib/twingly/url/normalization_spec.rb:68-84 | a non-blogspot host with any subdomain, including `www` or `www.blog`, comes out as the lower-cased host: `www` is neither added nor removed |
| `Normalizer.NoHostRepair` | spec/lib/twingly/url/normalization_spec.rb:127-131 | a lower-case ASCII non-blogspot host with a subdomain comes out character for character: consecutive dots and already-encoded `xn--` labels pass through |
| `Normalizer.BlogspotRewritten` | spec/lib/twingly/url/normalization_spec.rb:133-151 | a blogspot host comes out as the subdomain without leading `www` labels plus `blogspot.com`, whatever suffix it had, and never starts with a `www` label |
| `Normalizer.CaseFoldedOnlySchemeAndHost` | spec/lib/twingly/url/normalization_spec.rb:153-177 | scheme and host come out with no upper-case letter; the path is `/` or a prefix of the original path, so its case is preserved; query and fragment are copied verbatim |
| `Normalizer.SchemeDefaultsToHttp` | spec/lib/twingly/url/normalization_spec.rb:114-119 | a URL without a scheme normalises exactly like the same URL with scheme `http` |
| `Normalizer.CanonicalizeIsCanonical` | spec/lib/twingly/url/normalization_spec.rb:62-112 | every accepted URL comes out canonical: lower-case scheme and host, non-empty suffix, canonical path, a subdomain on every non-blogspot host, and no leading `www` and suffix `com` on blogspot hosts |
| `Normalizer.CanonicalIsFixed` | spec/lib/twingly/url/normalization_spec.rb:68-84 | a URL already in canonical shape is returned unchanged |
| `Normalizer.CanonicalizeIdempotent` | spec/lib/twingly/url/normalization_spec.rb:80-84 | running the chain on its own output changes nothing |
| `Normalizer.NormalizeUrlIdempotent` | spec/lib/twingly/url/normalization_spec.rb:167-177 | normalising a normalised URL's text gives the same text, provided the parsers read that text back as the record the chain produced |
| `Paths.TrimTrailingSlashes` | spec/lib/twingly/url/normalization_spec.rb:107-112 | the result is a prefix of the path, only slashes were cut off, and it does not end in `/` |
| `Paths.OriginPath` | spec/lib/twingly/url/normalization_spec.rb:86-98 | an empty or all-slash path becomes exactly `/` |
| `Paths.ContentPath` | spec/lib/twingly/url/normalization_spec.rb:100-112 | a path with real content keeps every character up to its last non-slash one and loses exactly the trailing slashes |
| `Paths.NormalizePathCanonical` | spec/lib/twingly/url/normalization_spec.rb:93-105 | the normalised path is canonical, a canonical path is left unchanged, and normalising twice is normalising once |
| `Hosts.StripWww` | spec/lib/twingly/url/normalization_spec.rb:139-144 | the result has no leading `www` label, is a suffix of the subdomain, and equals the subdomain when that had no leading `www` |
| `Hosts.StripWwwRemovesOnlyWww` | spec/lib/twingly/url/normalization_spec.rb:146-151 | what stripping removes is a run of `www.` labels, or such a run followed by a bare `www` |
| `Ascii.Lower` | spec/lib/twingly/url/normalization_spec.rb:160-165 | same length as the input, each character folded on its own: `A`-`Z` become `a`-`z` and every other character stays |
| `Ascii.LowerFixedIff` | spec/lib/twingly/url/normalization_spec.rb:167-171 | folding leaves a string unchanged exactly when it has no upper-case letter |
| `Vectors.AddsWww` | spec/lib/twingly/url/normalization_spec.rb:62-66 | the parsed `http://twingly.com/` normalises to `http://www.twingly.com/` |
| `Vectors.KeepsSubdomain` | spec/lib/twingly/url/normalization_spec.rb:68-72 | the parsed `http://blog.twingly.com/` normalises to itself |
| `Vectors.KeepsWwwBlog` | spec/lib/twingly/url/normalization_spec.rb:74-78 | the parsed `http://www.blog.twingly.com/` normalises to itself |
| `Vectors.KeepsWww` | spec/lib/twingly/url/normalization_spec.rb:80-84 | the parsed `http://www.twingly.com/` normalises to itself |
| `Vectors.OriginSlashAdded` | spec/lib/twingly/url/normalization_spec.rb:86-91 | the parsed `http://www.twingly.com` normalises to `http://www.twingly.com/` |
| `Vectors.OriginSlashSingle` | spec/lib/twingly/url/normalization_spec.rb:93-98 | the parsed `http://www.twingly.com//` normalises to `http://www.twingly.com/` |
| `Vectors.TrailingSlashRemoved` | spec/lib/twingly/url/normalization_spec.rb:100-105 | the parsed `http://www.twingly.com/blog-data/` normalises to `http://www.twingly.com/blog-data` |
| `Vectors.DoubleSlashRemoved` | spec/lib/twingly/url/normalization_spec.rb:107-112 | the parsed `www.twingly.com/path//` normalises to `http://www.twingly.com/path` |
| `Vectors.SchemeAdded` | spec/lib/twingly/url/normalization_spec.rb:114-119 | the parsed `www.twingly.com/` normalises to `http://www.twingly.com/` |
| `Vectors.MissingSuffixRejected` | spec/lib/twingly/url/normalization_spec.rb:121-125 | the parsed `http://www.twingly.`, with an empty suffix, has no result |
| `Vectors.BlogspotNoWwwAdded` | spec/lib/twingly/url/normalization_spec.rb:133-137 | the parsed `http://jlchen1026.blogspot.com/` normalises to itself |
| `Vectors.BlogspotWwwRemoved` | spec/lib/twingly/url/normalization_spec.rb:139-144 | the parsed `http://www.jlchen1026.blogspot.com/` normalises to `http://jlchen1026.blogspot.com/` |
| `Vectors.BlogspotSuffixRewritten` | spec/lib/twingly/url/normalization_spec.rb:146-151 | the parsed `http://WWW.jlchen1026.blogspot.CO.UK/`, with suffix `CO.UK`, normalises to `http://jlchen1026.blogspot.com/` |
| `Vectors.SchemeFolded` | spec/lib/twingly/url/normalization_spec.rb:153-158 | the parsed `HTTPS://www.twingly.com/` normalises to `https://www.twingly.com/` |
| `Vectors.HostFolded` | spec/lib/twingly/url/normalization_spec.rb:160-165 | the parsed `http://WWW.TWINGLY.COM/` normalises to `http://www.twingly.com/` |
| `Vectors.PathCaseKept` | spec/lib/twingly/url/normalization_spec.rb:167-171 | the parsed `http://www.twingly.com/PaTH` normalises to itself |
| `Vectors.FragmentCaseKept` | spec/lib/twingly/url/normalization_spec.rb:173-177 | the parsed `http://www.twingly.com/#FRAGment` normalises to itself |
| `Vectors.UmlautPathKept` | spec/lib/twingly/url/normalization_spec.rb:196-199 | the parsed `http://www.aoo.se/öö` normalises to itself: a non-ASCII path is kept as it is |
| `Vectors.EncodedSldKept` | spec/lib/twingly/url/normalization_spec.rb:201-205 | the parsed `http://www.xn--4cab6c.se/` normalises to itself |
| `Vectors.EncodedTldGainsWww` | spec/lib/twingly/url/normalization_spec.rb:207-212 | the parsed `http://example.xn--p1ai/` normalises to `http://www.example.xn--p1ai/` |
| `Vectors.NotAUrlRejected` | spec/lib/twingly/url/normalization_spec.rb:226-229 | text the parsers do not read as a URL, such as `Just some text`, has no result |

## Left out

- URL extraction (`extract_urls`, lib/twingly-url-normalizer.rb:17-19, and its tests at spec/lib/twingly/url/normalization_spec.rb:39-59): PostRank's scanning is heuristic and foreign. Its output is the `candidates` sequence given to `Normalizer.Normalize`.
- Public-suffix parsing (Domainatrix): the breakdown arrives in the `ParsedUrl` record. The model assumes, as Domainatrix promises, that subdomain, domain and suffix joined by dots spell the host.
- `URI.parse` and `URI#to_s` syntax: parsing is the `parse` parameter. Printing is `Normalizer.Render`, which covers scheme, host, path, query and fragment only. Ports and user information are not modelled.
- IDNA/punycode encoding of non-ASCII hosts (spec/lib/twingly/url/normalization_spec.rb:189-194, 214-219): this needs RFC 3492 and the IDNA tables. Case folding here is ASCII only. The rule lemmas `Normalizer.WwwInserted`, `Normalizer.SubdomainKept`, `Normalizer.NoHostRepair` and `Normalizer.BlogspotRewritten` require an ASCII host (`Ascii.IsAscii`), so they say nothing about hosts that still need encoding.
- Percent-encoding and decoding of paths (spec/lib/twingly/url/normalization_spec.rb:231-243): the tests there expect percent-encoded paths to be decoded, which is not modelled, because it needs UTF-8 handling. Paths are kept verbatim apart from the slash rule.
- The "does not raise" and String-or-Array input tests (spec/lib/twingly/url/normalization_spec.rb:7-13, 179-187, 221-224): Dafny functions are total and typed, so nothing can raise.
- Normalizer.NormalizeUrlIdempotent: stated only for texts the parsers read back as the produced record. The parsers are not modelled, so text-level idempotence cannot be stated unconditionally.
- Concrete test vectors: the consecutive-dots test (spec/lib/twingly/url/normalization_spec.rb:127-131) has no `Vectors` lemma, because the split the domain parser makes of `www..twingly..com` is not determined here. `Normalizer.NoHostRepair` covers it for every split that has a non-empty subdomain, a domain other than `blogspot` and a non-empty suffix. Every other test from line 62 on has a `Vectors` lemma, or is listed under one of the lines above.

=== FILE: ascii.dfy ===
/** ASCII case folding of strings, as used for the scheme and the host of a
    URL. Only the letters `A`..`Z` change; every other character, including
    non-ASCII ones, is left as it is. */
module Ascii {

  predicate IsUpper(c: char) {
    'A' <= c <= 'Z'
  }

  /** The lower-case counterpart of an upper-case ASCII letter; any other
      character unchanged. */
  function ToLower(c: char): (d: char)
    ensures !IsUpper(d)
    ensures IsUpper(c) ==> d as int == c as int + 32
    ensures !IsUpper(c) ==> d == c
  {
    if IsUpper(c) then (c as int + 32) as char else c
  }

  /** Every character of `s` is an ASCII character. Hosts are in this form
      once any internationalised labels have been encoded. */
  predicate IsAscii(s: string) {
    forall i :: 0 <= i < |s| ==> s[i] < 128 as char
  }

  /** No character of `s` is an upper-case ASCII letter. */
  predicate NoUpper(s: string) {
    forall i :: 0 <= i < |s| ==> !IsUpper(s[i])
  }

  /** `s` with every character folded by `ToLower`, position by position. */
  function Lower(s: string): (r: string)
    ensures |r| == |s|
    ensures forall i :: 0 <= i < |s| ==> r[i] == ToLower(s[i])
    decreases |s|
  {
    if s == [] then [] else [ToLower(s[0])] + Lower(s[1..])
  }

  /** Folding leaves no upper-case letter behind. */
  lemma LowerHasNoUpper(s: string)
    ensures NoUpper(Lower(s))
  {
  }

  /** Folding changes a string exactly when it contains an upper-case letter. */
  lemma {:induction false} LowerFixedIff(s: string)
    ensures Lower(s) == s <==> NoUpper(s)
  {
    if NoUpper(s) {
      assert forall i :: 0 <= i < |s| ==> Lower(s)[i] == s[i];
    } else {
      var i :| 0 <= i < |s| && IsUpper(s[i]);
      assert Lower(s)[i] != s[i];
    }
  }

  /** Folding twice is folding once. */
  lemma LowerIdempotent(s: string)
    ensures Lower(Lower(s)) == Lower(s)
  {
    LowerHasNoUpper(s);
    LowerFixedIff(Lower(s));
  }

  /** Folding distributes over concatenation. */
  lemma {:induction false} LowerAppend(a: string, b: string)
    ensures Lower(a + b) == Lower(a) + Lower(b)
    decreases |a|
  {
    if a == [] {
      assert a + b == b;
    } else {
      assert (a + b)[0] == a[0];
      assert (a + b)[1..] == a[1..] + b;
      LowerAppend(a[1..], b);
    }
  }
}

=== FILE: hosts.dfy ===
/** Host names as the domain parser breaks them down: an optional subdomain,
    the registrable domain and the public suffix, joined by dots. */
module Hosts {

  import opened Ascii

  const WwwLabel: string := "www"

  /** The host that a breakdown denotes; an empty subdomain contributes no
      label and no dot. */
  function JoinHost(subdomain: string, domain: string, suffix: string): string {
    (if subdomain == "" then "" else subdomain + ".") + domain + "." + suffix
  }

  /** `s` begins with a `www` label: it is `www` itself or starts `www.`. */
  predicate HasLeadingWww(s: string) {
    s == WwwLabel || (|s| >= 4 && s[..4] == WwwLabel + ".")
  }

  /** `s` with its leading `www` labels removed. */
  function StripWww(s: string): (r: string)
    ensures !HasLeadingWww(r)
    ensures |r| <= |s| && s[|s| - |r|..] == r
    ensures !HasLeadingWww(s) ==> r == s
    decreases |s|
  {
    if s == WwwLabel then ""
    else if |s| >= 4 && s[..4] == WwwLabel + "." then StripWww(s[4..])
    else s
  }

  /** Stripping twice is stripping once. */
  lemma StripWwwIdempotent(s: string)
    ensures StripWww(StripWww(s)) == StripWww(s)
  {
  }

  /** What stripping removes is a run of `www` labels: `s` is the result
      preceded by `n` copies of `www.`, or, when the result is empty, `n`
      copies of `www.` followed by a bare `www`. */
  lemma {:induction false} StripWwwRemovesOnlyWww(s: string)
    ensures exists n: nat :: IsWwwRunBefore(n, s, StripWww(s))
    decreases |s|
  {
    if s == WwwLabel {
      assert StripWww(s) == "";
      assert WwwRun(0) == "";
      assert IsWwwRunBefore(0, s, StripWww(s));
    } else if |s| >= 4 && s[..4] == WwwLabel + "." {
      var t := s[4..];
      var r := StripWww(t);
      assert StripWww(s) == r;
      assert s == s[..4] + t;
      StripWwwRemovesOnlyWww(t);
      var n: nat :| IsWwwRunBefore(n, t, r);
      WwwRunCons(n, t, r);
      assert IsWwwRunBefore(n + 1, s, StripWww(s));
    } else {
      assert StripWww(s) == s;
      WwwRunZero(s);
    }
  }

  /** `s` consists of `n` copies of `www.` and then `r`, or of `n` copies of
      `www.` and a bare `www` when `r` is empty. */
  predicate IsWwwRunBefore(n: nat, s: string, r: string) {
    s == WwwRun(n) + r || (r == "" && s == WwwRun(n) + WwwLabel)
  }

  lemma WwwRunZero(s: string)
    ensures IsWwwRunBefore(0, s, s)
  {
    assert WwwRun(0) == "";
  }

  lemma WwwRunCons(n: nat, t: string, r: string)
    requires IsWwwRunBefore(n, t, r)
    ensures IsWwwRunBefore(n + 1, WwwLabel + "." + t, r)
  {
    assert WwwRun(n + 1) == "www." + WwwRun(n);
    if t == WwwRun(n) + r {
      assert "www." + t == WwwRun(n + 1) + r;
    } else {
      assert "www." + t == WwwRun(n + 1) + WwwLabel;
    }
  }

  /** `n` copies of the label `www` each followed by a dot. */
  function WwwRun(n: nat): string {
    if n == 0 then "" else "www." + WwwRun(n - 1)
  }

  /** Case folding a host folds each part of its breakdown. */
  lemma LowerJoinHost(subdomain: string, domain: string, suffix: string)
    ensures Lower(JoinHost(subdomain, domain, suffix))
      == JoinHost(Lower(subdomain), Lower(domain), Lower(suffix))
  {
    var pre := if subdomain == "" then "" else subdomain + ".";
    var lpre := if subdomain == "" then "" else Lower(subdomain) + ".";
    assert Lower(".") == ".";
    assert Lower(pre) == lpre by {
      if subdomain != "" {
        LowerAppend(subdomain, ".");
      }
    }
    LowerAppend(pre, domain);
    LowerAppend(pre + domain, ".");
    LowerAppend(pre + domain + ".", suffix);
  }

  /** A host built on the registrable domain `domain` whose subdomain has no
      leading `www` label does not itself start with a `www` label, provided
      the domain is not `www` itself. */
  lemma {:induction false} NoLeadingWwwJoined(subdomain: string, domain: string, suffix: string)
    requires !HasLeadingWww(subdomain)
    requires !HasLeadingWww(domain + "." + suffix)
    ensures !HasLeadingWww(JoinHost(subdomain, domain, suffix))
  {
    var h := JoinHost(subdomain, domain, suffix);
    if subdomain == "" {
      assert h == domain + "." + suffix;
    } else {
      assert h == subdomain + "." + domain + "." + suffix;
      assert h[|subdomain|] == '.';
      if |subdomain| >= 4 {
        assert h[..4] == subdomain[..4];
      } else if |h| >= 4 {
        assert h[..4] != "www." by {
          assert h[..4][|subdomain|] == '.';
          if |subdomain| == 3 {
            assert h[..3] == subdomain;
          }
        }
      }
    }
  }
}

=== FILE: normalizer.dfy ===
/** The URL normalizer: the rule chain that rewrites one extracted URL into
    its canonical string, and the batch operation that applies it to every
    URL the extractor finds.

    The two libraries the normalizer leans on are inputs here. The URL
    parser together with the domain parser hands over a `ParsedUrl`, or
    `None` when the text is not a URL; the extractor hands over the
    sequence of candidate strings. */
module Normalizer {

  import opened Options
  import opened Ascii
  import opened Paths
  import opened Hosts

  /** The scheme assumed when the URL has none. */
  const DefaultScheme: string := "http"
  /** The registrable domain that gets the blogspot rule. */
  const BlogspotDomain: string := "blogspot"
  /** The suffix every blogspot host is rewritten to. */
  const BlogspotSuffix: string := "com"

  /** A URL as the URL parser and the domain parser see it. The host is not
      stored: it is the breakdown `subdomain`, `domain`, `suffix` joined by
      dots (see `JoinHost`). */
  datatype ParsedUrl = ParsedUrl(
    scheme: Option<string>,
    subdomain: string,
    domain: string,
    suffix: string,
    path: string,
    query: Option<string>,
    fragment: Option<string>)
  {
    function Host(): string {
      JoinHost(subdomain, domain, suffix)
    }
  }

  function QueryPart(query: Option<string>): string {
    match query
    case None => ""
    case Some(q) => "?" + q
  }

  function FragmentPart(fragment: Option<string>): string {
    match fragment
    case None => ""
    case Some(f) => "#" + f
  }

  /** The query and fragment of `u` as they appear in its text. */
  function Tail(u: ParsedUrl): string {
    QueryPart(u.query) + FragmentPart(u.fragment)
  }

  /** The URL text: scheme, `://`, host, path, query and fragment. */
  function Render(u: ParsedUrl): string {
    u.scheme.GetOr(DefaultScheme) + "://" + u.Host() + u.path + Tail(u)
  }

  /** Supplies the default scheme and folds the scheme and the host to lower
      case; path, query and fragment are left exactly as they were. */
  function CaseFold(u: ParsedUrl): (r: ParsedUrl)
    ensures r.scheme == Some(Lower(u.scheme.GetOr(DefaultScheme)))
    ensures r.Host() == Lower(u.Host())
    ensures r.path == u.path && r.query == u.query && r.fragment == u.fragment
  {
    LowerJoinHost(u.subdomain, u.domain, u.suffix);
    ParsedUrl(Some(Lower(u.scheme.GetOr(DefaultScheme))),
      Lower(u.subdomain), Lower(u.domain), Lower(u.suffix),
      u.path, u.query, u.fragment)
  }

  /** The blogspot rule: leading `www` labels leave the subdomain and the
      suffix, whatever it was, becomes `com`. */
  function ApplyBlogspot(u: ParsedUrl): (r: ParsedUrl)
    ensures r.Host() == JoinHost(StripWww(u.subdomain), u.domain, BlogspotSuffix)
    ensures !HasLeadingWww(r.subdomain)
    ensures r.scheme == u.scheme && r.path == u.path && r.query == u.query && r.fragment == u.fragment
  {
    u.(subdomain := StripWww(u.subdomain), suffix := BlogspotSuffix)
  }

  /** The www rule: a host without a subdomain gets `www.` in front, any
      other host is left alone. */
  function InsertWww(u: ParsedUrl): (r: ParsedUrl)
    ensures u.subdomain == "" ==> r.Host() == WwwLabel + "." + u.Host()
    ensures u.subdomain != "" ==> r == u
    ensures r.scheme == u.scheme && r.path == u.path && r.query == u.query && r.fragment == u.fragment
  {
    if u.subdomain == "" then u.(subdomain := WwwLabel) else u
  }

  /** The host rules in their order of precedence: the blogspot rule when the
      registrable domain is `blogspot`, the www rule otherwise. */
  function RewriteHost(u: ParsedUrl): (r: ParsedUrl)
    ensures r.scheme == u.scheme && r.domain == u.domain && r.path == u.path
    ensures r.query == u.query && r.fragment == u.fragment
    ensures u.domain == BlogspotDomain ==>
      r.subdomain == StripWww(u.subdomain) && !HasLeadingWww(r.subdomain) && r.suffix == BlogspotSuffix
    ensures u.domain != BlogspotDomain ==>
      r.subdomain == (if u.subdomain == "" then WwwLabel else u.subdomain) && r.suffix == u.suffix
    ensures u.domain != BlogspotDomain && u.subdomain != "" ==> r == u
  {
    if u.domain == BlogspotDomain then ApplyBlogspot(u) else InsertWww(u)
  }

  /** The rule chain, in order: reject a host without a suffix, fold case,
      then the blogspot rule or else the www rule, then the path rule. */
  function Canonicalize(u: ParsedUrl): (r: Option<ParsedUrl>)
    ensures r.Some? <==> u.suffix != ""
  {
    if u.suffix == "" then None
    else
      var f := CaseFold(u);
      var h := RewriteHost(f);
      Some(h.(path := NormalizePath(h.path)))
  }

  /** The canonical string of a parsed URL, or `None` when the URL did not
      parse or its host has no suffix. */
  function NormalizeUrl(parsed: Option<ParsedUrl>): (r: Option<string>)
    ensures r.Some? <==> parsed.Some? && parsed.value.suffix != ""
  {
    match parsed
    case None => None
    case Some(u) =>
      match Canonicalize(u)
      case None => None
      case Some(c) => Some(Render(c))
  }

  /** Every candidate the extractor found, normalised, one result per
      candidate and in the order found; failures stay in place as `None`. */
  function Normalize(candidates: seq<string>, parse: string -> Option<ParsedUrl>): (r: seq<Option<string>>)
    ensures |r| == |candidates|
    ensures forall i :: 0 <= i < |candidates| ==> r[i] == NormalizeUrl(parse(candidates[i]))
    decreases |candidates|
  {
    if candidates == [] then []
    else [NormalizeUrl(parse(candidates[0]))] + Normalize(candidates[1..], parse)
  }

  // ---------------------------------------------------------------------
  // The rules, one lemma each, stated on the output text.
  // ---------------------------------------------------------------------

  /** The scheme that appears in the output: the given one folded, or `http`. */
  function OutScheme(u: ParsedUrl): string {
    Lower(u.scheme.GetOr(DefaultScheme))
  }

  /** A host with no subdomain (and not on blogspot) comes out as `www.`
      followed by the folded host; everything else is only folded or
      path-normalised. */
  lemma WwwInserted(u: ParsedUrl)
    requires IsAscii(u.Host())
    requires u.suffix != "" && u.subdomain == ""
    requires Lower(u.domain) != BlogspotDomain
    ensures NormalizeUrl(Some(u))
      == Some(OutScheme(u) + "://" + "www." + Lower(u.Host()) + NormalizePath(u.path) + Tail(u))
  {
    var f := CaseFold(u);
    assert f.subdomain == "";
    var h := InsertWww(f);
    assert h.Host() == "www." + Lower(u.Host());
    var c := h.(path := NormalizePath(h.path));
    assert f.domain != BlogspotDomain;
    assert Canonicalize(u) == Some(c);
    assert c.Host() == h.Host();
    assert c.scheme == Some(OutScheme(u)) && c.path == NormalizePath(u.path) && Tail(c) == Tail(u);
    var a, x, p, t := OutScheme(u) + "://", Lower(u.Host()), NormalizePath(u.path), Tail(u);
    assert Render(c) == a + ("www." + x) + p + t;
    assert a + ("www." + x) == a + "www." + x;
  }

  /** A host that has a subdomain (and is not on blogspot) comes out folded
      but otherwise unchanged: `www` is neither added nor removed, and
      nothing else about the host is repaired. */
  lemma SubdomainKept(u: ParsedUrl)
    requires IsAscii(u.Host())
    requires u.suffix != "" && u.subdomain != ""
    requires Lower(u.domain) != BlogspotDomain
    ensures NormalizeUrl(Some(u))
      == Some(OutScheme(u) + "://" + Lower(u.Host()) + NormalizePath(u.path) + Tail(u))
  {
  }

  /** A host that is already in lower case and has a subdomain (and is not
      on blogspot) comes out exactly as it came in: consecutive dots are not
      collapsed and ASCII-encoded labels are not touched. */
  lemma NoHostRepair(u: ParsedUrl)
    requires IsAscii(u.Host())
    requires u.suffix != "" && u.subdomain != ""
    requires u.domain != BlogspotDomain && NoUpper(u.Host())
    ensures NormalizeUrl(Some(u))
      == Some(OutScheme(u) + "://" + u.Host() + NormalizePath(u.path) + Tail(u))
  {
    LowerFixedIff(u.domain);
    LowerJoinHost(u.subdomain, u.domain, u.suffix);
    NoUpperParts(u.subdomain, u.domain, u.suffix);
    LowerFixedIff(u.Host());
    SubdomainKept(u);
  }

  /** A URL given without a scheme is normalised exactly as the same URL
      given with the scheme `http`. */
  lemma SchemeDefaultsToHttp(u: ParsedUrl)
    requires u.scheme == None
    ensures NormalizeUrl(Some(u)) == NormalizeUrl(Some(u.(scheme := Some(DefaultScheme))))
  {
  }

  /** A blogspot host loses its leading `www` labels, gets the suffix `com`
      whatever suffix it had, and never starts with `www`. */
  lemma BlogspotRewritten(u: ParsedUrl)
    requires IsAscii(u.Host())
    requires u.suffix != ""
    requires Lower(u.domain) == BlogspotDomain
    ensures var host := JoinHost(StripWww(Lower(u.subdomain)), BlogspotDomain, BlogspotSuffix);
      && NormalizeUrl(Some(u)) == Some(OutScheme(u) + "://" + host + NormalizePath(u.path) + Tail(u))
      && !HasLeadingWww(host)
  {
    assert (BlogspotDomain + "." + BlogspotSuffix)[..4] == "blog";
    NoLeadingWwwJoined(StripWww(Lower(u.subdomain)), BlogspotDomain, BlogspotSuffix);
  }

  /** Scheme and host come out in lower case; the path keeps every character
      it keeps in its original case, and query and fragment are copied
      verbatim. */
  lemma CaseFoldedOnlySchemeAndHost(u: ParsedUrl)
    requires u.suffix != ""
    ensures var c := Canonicalize(u).value;
      && c.scheme.Some? && NoUpper(c.scheme.value) && NoUpper(c.Host())
      && (c.path == "/" || c.path <= u.path)
      && c.query == u.query && c.fragment == u.fragment
  {
    CanonicalizeIsCanonical(u);
    var c := Canonicalize(u).value;
    NoUpperJoinHost(c.subdomain, c.domain, c.suffix);
    if !AllSlashes(u.path) {
      ContentPath(u.path);
    }
  }

  lemma NoUpperParts(subdomain: string, domain: string, suffix: string)
    requires NoUpper(JoinHost(subdomain, domain, suffix))
    ensures NoUpper(domain)
  {
    var pre := if subdomain == "" then "" else subdomain + ".";
    assert JoinHost(subdomain, domain, suffix) == pre + domain + "." + suffix;
    assert forall i :: 0 <= i < |domain| ==> domain[i] == JoinHost(subdomain, domain, suffix)[|pre| + i];
  }

  lemma NoUpperJoinHost(subdomain: string, domain: string, suffix: string)
    requires NoUpper(subdomain) && NoUpper(domain) && NoUpper(suffix)
    ensures NoUpper(JoinHost(subdomain, domain, suffix))
  {
    LowerJoinHost(subdomain, domain, suffix);
    LowerFixedIff(subdomain);
    LowerFixedIff(domain);
    LowerFixedIff(suffix);
    LowerHasNoUpper(JoinHost(subdomain, domain, suffix));
  }

  // ---------------------------------------------------------------------
  // Idempotence.
  // ---------------------------------------------------------------------

  /** The shape every output of the rule chain has. */
  predicate IsCanonical(c: ParsedUrl) {
    && c.scheme.Some? && NoUpper(c.scheme.value)
    && NoUpper(c.subdomain) && NoUpper(c.domain) && NoUpper(c.suffix)
    && c.suffix != ""
    && IsCanonicalPath(c.path)
    && (c.domain == BlogspotDomain ==> !HasLeadingWww(c.subdomain) && c.suffix == BlogspotSuffix)
    && (c.domain != BlogspotDomain ==> c.subdomain != "")
  }

  /** Scheme present and scheme and host free of upper-case letters. */
  predicate IsFolded(u: ParsedUrl) {
    && u.scheme.Some? && NoUpper(u.scheme.value)
    && NoUpper(u.subdomain) && NoUpper(u.domain) && NoUpper(u.suffix)
  }

  lemma CaseFoldIsFolded(u: ParsedUrl)
    ensures IsFolded(CaseFold(u))
  {
    LowerHasNoUpper(u.scheme.GetOr(DefaultScheme));
    LowerHasNoUpper(u.subdomain);
    LowerHasNoUpper(u.domain);
    LowerHasNoUpper(u.suffix);
  }

  /** Folding leaves a record unchanged exactly when its scheme is present
      and its scheme and host are already free of upper-case letters. */
  lemma CaseFoldFixedIff(u: ParsedUrl)
    ensures CaseFold(u) == u <==> IsFolded(u)
  {
    if IsFolded(u) {
      LowerFixedIff(u.scheme.value);
      LowerFixedIff(u.subdomain);
      LowerFixedIff(u.domain);
      LowerFixedIff(u.suffix);
    } else {
      CaseFoldIsFolded(u);
    }
  }

  lemma RewriteHostShape(f: ParsedUrl)
    requires IsFolded(f) && f.suffix != ""
    ensures var h := RewriteHost(f);
      && IsFolded(h) && h.suffix != "" && h.domain == f.domain && h.path == f.path
      && (h.domain == BlogspotDomain ==> !HasLeadingWww(h.subdomain) && h.suffix == BlogspotSuffix)
      && (h.domain != BlogspotDomain ==> h.subdomain != "")
  {
    if f.domain == BlogspotDomain {
      assert NoUpper(BlogspotSuffix);
    } else {
      assert NoUpper(WwwLabel);
    }
  }

  /** Every URL the chain accepts comes out canonical. */
  lemma CanonicalizeIsCanonical(u: ParsedUrl)
    requires u.suffix != ""
    ensures IsCanonical(Canonicalize(u).value)
  {
    var f := CaseFold(u);
    CaseFoldIsFolded(u);
    RewriteHostShape(f);
    NormalizePathCanonical(u.path);
  }

  /** A canonical URL is a fixed point of the chain. */
  lemma CanonicalIsFixed(c: ParsedUrl)
    requires IsCanonical(c)
    ensures Canonicalize(c) == Some(c)
  {
    LowerFixedIff(c.scheme.value);
    LowerFixedIff(c.subdomain);
    LowerFixedIff(c.domain);
    LowerFixedIff(c.suffix);
    NormalizePathCanonical(c.path);
  }

  /** Running the chain on its own output changes nothing. */
  lemma CanonicalizeIdempotent(u: ParsedUrl)
    requires u.suffix != ""
    ensures Canonicalize(Canonicalize(u).value) == Canonicalize(u)
  {
    CanonicalizeIsCanonical(u);
    CanonicalIsFixed(Canonicalize(u).value);
  }

  /** Normalising a normalised URL gives it back, as long as the parsers
      read the output text as the record the chain produced. */
  lemma NormalizeUrlIdempotent(u: ParsedUrl, parse: string -> Option<ParsedUrl>)
    requires NormalizeUrl(Some(u)).Some?
    requires parse(NormalizeUrl(Some(u)).value) == Canonicalize(u)
    ensures NormalizeUrl(parse(NormalizeUrl(Some(u)).value)) == NormalizeUrl(Some(u))
  {
    CanonicalizeIdempotent(u);
  }

  // ---------------------------------------------------------------------
  // The batch.
  // ---------------------------------------------------------------------

  /** Normalising two runs of candidates one after the other is normalising
      their concatenation: results keep the order of the candidates. */
  lemma {:induction false} NormalizeAppend(a: seq<string>, b: seq<string>, parse: string -> Option<ParsedUrl>)
    ensures Normalize(a + b, parse) == Normalize(a, parse) + Normalize(b, parse)
    decreases |a|
  {
    if a == [] {
      assert a + b == b;
    } else {
      assert (a + b)[0] == a[0];
      assert (a + b)[1..] == a[1..] + b;
      NormalizeAppend(a[1..], b, parse);
    }
  }
}

=== FILE: options.dfy ===
/** The optional value used for results that may be absent: a URL that does
    not parse, a missing scheme, a missing query or fragment. */
module Options {

  datatype Option<+T> = None | Some(value: T) {

    /** The wrapped value, or `default` when there is none. */
    function GetOr(default: T): T {
      match this
      case Some(v) => v
      case None => default
    }
  }
}

=== FILE: paths.dfy ===
/** Normalisation of the path of a URL: the origin gets exactly one `/`, any
    other path loses its trailing slashes. The characters that are kept are
    kept exactly, case and all. */
module Paths {

  /** `p` is empty or consists of `/` only: it denotes the origin. */
  predicate AllSlashes(p: string) {
    forall i :: 0 <= i < |p| ==> p[i] == '/'
  }

  /** The longest prefix of `p` that does not end in `/`. */
  function TrimTrailingSlashes(p: string): (r: string)
    ensures r <= p
    ensures AllSlashes(p[|r|..])
    ensures r == [] || r[|r| - 1] != '/'
    decreases |p|
  {
    if |p| > 0 && p[|p| - 1] == '/' then TrimTrailingSlashes(p[..|p| - 1]) else p
  }

  /** The canonical path: `/` for the origin, otherwise the path with its
      trailing slashes removed. */
  function NormalizePath(p: string): (r: string)
  {
    if AllSlashes(p) then "/" else TrimTrailingSlashes(p)
  }

  /** A path is canonical when it is the single `/` of the origin, or a path
      with real content that does not end in `/`. */
  predicate IsCanonicalPath(p: string) {
    p == "/" || (!AllSlashes(p) && p[|p| - 1] != '/')
  }

  /** The origin path, empty or made of slashes only, becomes exactly `/`. */
  lemma OriginPath(p: string)
    requires AllSlashes(p)
    ensures NormalizePath(p) == "/"
  {
  }

  /** A path with content keeps every character up to its last non-slash one,
      and loses exactly the slashes after it. */
  lemma {:induction false} ContentPath(p: string)
    requires !AllSlashes(p)
    ensures var r := NormalizePath(p);
      && r <= p
      && AllSlashes(p[|r|..])
      && !AllSlashes(r)
      && r[|r| - 1] != '/'
  {
    var r := NormalizePath(p);
    assert r == TrimTrailingSlashes(p);
    var i :| 0 <= i < |p| && p[i] != '/';
    assert r[i] == p[i];
  }

  /** The result is always canonical, and a canonical path is left alone, so
      normalising twice is normalising once. */
  lemma {:induction false} NormalizePathCanonical(p: string)
    ensures IsCanonicalPath(NormalizePath(p))
    ensures IsCanonicalPath(p) ==> NormalizePath(p) == p
    ensures NormalizePath(NormalizePath(p)) == NormalizePath(p)
  {
    if !AllSlashes(p) {
      ContentPath(p);
    }
    var r := NormalizePath(p);
    if r != "/" {
      ContentPath(p);
    }
  }
}

=== FILE: vectors.dfy ===
/** Expected strings from the repository's test file, each proved for the
    record the URL parser and the domain parser hand over for that test's
    input. A vector is proved in steps: the record the chain makes
    (`...Chain`), the text that record prints as (`...Text`), and the two
    together. Facts about literal strings sit in small lemmas of their own
    so that each proof stays small. */
module Vectors {

  import opened Options
  import opened Ascii
  import opened Paths
  import opened Hosts
  import opened Normalizer

  // ---------------------------------------------------------------------
  // Steps shared by all vectors.
  // ---------------------------------------------------------------------

  /** The chain, one rule at a time. */
  lemma ChainOf(u: ParsedUrl, f: ParsedUrl, h: ParsedUrl, c: ParsedUrl)
    requires u.suffix != ""
    requires CaseFold(u) == f && RewriteHost(f) == h && h.(path := NormalizePath(h.path)) == c
    ensures Canonicalize(u) == Some(c)
  {
  }

  /** Folding leaves a record alone when its scheme and host are already in
      lower case. */
  lemma FoldedOf(u: ParsedUrl)
    requires u.scheme.Some? && NoUpper(u.scheme.value)
    requires NoUpper(u.subdomain) && NoUpper(u.domain) && NoUpper(u.suffix)
    ensures CaseFold(u) == u
  {
    CaseFoldFixedIff(u);
  }

  /** The printed text, part by part. */
  lemma RenderOf(c: ParsedUrl, scheme: string, host: string, tail: string, text: string)
    requires c.scheme == Some(scheme) && c.Host() == host && Tail(c) == tail
    requires scheme + "://" + host + c.path + tail == text
    ensures Render(c) == text
  {
  }

  lemma PlainLabels()
    ensures NoUpper("http") && NoUpper("www") && NoUpper("twingly") && NoUpper("com")
    ensures NoUpper("blog") && NoUpper("www.blog")
    ensures NoUpper("blogspot") && NoUpper("jlchen1026") && NoUpper("www.jlchen1026")
  {
  }

  lemma RootPath()
    ensures NormalizePath("/") == "/"
  {
    OriginPath("/");
  }

  lemma WwwTwinglyHost()
    ensures JoinHost("www", "twingly", "com") == "www.twingly.com"
  {
  }

  lemma BlogTwinglyHost()
    ensures JoinHost("blog", "twingly", "com") == "blog.twingly.com"
  {
  }

  lemma WwwBlogTwinglyHost()
    ensures JoinHost("www.blog", "twingly", "com") == "www.blog.twingly.com"
  {
  }

  lemma BlogspotHost()
    ensures JoinHost("jlchen1026", "blogspot", "com") == "jlchen1026.blogspot.com"
  {
  }

  lemma WwwTwinglySpelled()
    ensures "http" + "://" + "www.twingly.com" + "/" + "" == "http://www.twingly.com/"
  {
  }

  /** `http://www.twingly.com/`, the output of several vectors. */
  lemma WwwTwinglyText()
    ensures Render(ParsedUrl(Some("http"), "www", "twingly", "com", "/", None, None))
      == "http://www.twingly.com/"
  {
    WwwTwinglyHost();
    WwwTwinglySpelled();
    RenderOf(ParsedUrl(Some("http"), "www", "twingly", "com", "/", None, None),
      "http", "www.twingly.com", "", "http://www.twingly.com/");
  }

  // ---------------------------------------------------------------------
  // The www rule (spec/lib/twingly/url/normalization_spec.rb:62-84).
  // ---------------------------------------------------------------------

  lemma AddsWwwChain()
    ensures Canonicalize(ParsedUrl(Some("http"), "", "twingly", "com", "/", None, None))
      == Some(ParsedUrl(Some("http"), "www", "twingly", "com", "/", None, None))
  {
    PlainLabels();
    assert NoUpper("");
    FoldedOf(ParsedUrl(Some("http"), "", "twingly", "com", "/", None, None));
    RootPath();
    ChainOf(ParsedUrl(Some("http"), "", "twingly", "com", "/", None, None),
      ParsedUrl(Some("http"), "", "twingly", "com", "/", None, None),
      ParsedUrl(Some("http"), "www", "twingly", "com", "/", None, None),
      ParsedUrl(Some("http"), "www", "twingly", "com", "/", None, None));
  }

  /** `http://twingly.com/` becomes `http://www.twingly.com/`. */
  lemma AddsWww()
    ensures NormalizeUrl(Some(ParsedUrl(Some("http"), "", "twingly", "com", "/", None, None)))
      == Some("http://www.twingly.com/")
  {
    AddsWwwChain();
    WwwTwinglyText();
  }

  lemma KeepsSubdomainChain()
    ensures Canonicalize(ParsedUrl(Some("http"), "blog", "twingly", "com", "/", None, None))
      == Some(ParsedUrl(Some("http"), "blog", "twingly", "com", "/", None, None))
  {
    PlainLabels();
    CanonicalIsFixed(ParsedUrl(Some("http"), "blog", "twingly", "com", "/", None, None));
  }

  lemma KeepsSubdomainSpelled()
    ensures "http" + "://" + "blog.twingly.com" + "/" + "" == "http://blog.twingly.com/"
  {
  }

  lemma KeepsSubdomainText()
    ensures Render(ParsedUrl(Some("http"), "blog", "twingly", "com", "/", None, None))
      == "http://blog.twingly.com/"
  {
    BlogTwinglyHost();
    KeepsSubdomainSpelled();
    RenderOf(ParsedUrl(Some("http"), "blog", "twingly", "com", "/", None, None),
      "http", "blog.twingly.com", "", "http://blog.twingly.com/");
  }

  /** `http://blog.twingly.com/` is left as it is. */
  lemma KeepsSubdomain()
    ensures NormalizeUrl(Some(ParsedUrl(Some("http"), "blog", "twingly", "com", "/", None, None)))
      == Some("http://blog.twingly.com/")
  {
    KeepsSubdomainChain();
    KeepsSubdomainText();
  }

  lemma KeepsWwwBlogChain()
    ensures Canonicalize(ParsedUrl(Some("http"), "www.blog", "twingly", "com", "/", None, None))
      == Some(ParsedUrl(Some("http"), "www.blog", "twingly", "com", "/", None, None))
  {
    PlainLabels();
    CanonicalIsFixed(ParsedUrl(Some("http"), "www.blog", "twingly", "com", "/", None, None));
  }

  lemma KeepsWwwBlogSpelled()
    ensures "http" + "://" + "www.blog.twingly.com" + "/" + "" == "http://www.blog.twingly.com/"
  {
  }

  lemma KeepsWwwBlogText()
    ensures Render(ParsedUrl(Some("http"), "www.blog", "twingly", "com", "/", None, None))
      == "http://www.blog.twingly.com/"
  {
    WwwBlogTwinglyHost();
    KeepsWwwBlogSpelled();
    RenderOf(ParsedUrl(Some("http"), "www.blog", "twingly", "com", "/", None, None),
      "http", "www.blog.twingly.com", "", "http://www.blog.twingly.com/");
  }

  /** `http://www.blog.twingly.com/` is left as it is: its `www` stays. */
  lemma KeepsWwwBlog()
    ensures NormalizeUrl(Some(ParsedUrl(Some("http"), "www.blog", "twingly", "com", "/", None, None)))
      == Some("http://www.blog.twingly.com/")
  {
    KeepsWwwBlogChain();
    KeepsWwwBlogText();
  }

  lemma KeepsWwwChain()
    ensures Canonicalize(ParsedUrl(Some("http"), "www", "twingly", "com", "/", None, None))
      == Some(ParsedUrl(Some("http"), "www", "twingly", "com", "/", None, None))
  {
    PlainLabels();
    CanonicalIsFixed(ParsedUrl(Some("http"), "www", "twingly", "com", "/", None, None));
  }

  /** `http://www.twingly.com/` is left as it is. */
  lemma KeepsWww()
    ensures NormalizeUrl(Some(ParsedUrl(Some("http"), "www", "twingly", "com", "/", None, None)))
      == Some("http://www.twingly.com/")
  {
    KeepsWwwChain();
    WwwTwinglyText();
  }

  // ---------------------------------------------------------------------
  // The path rule and the default scheme
  // (spec/lib/twingly/url/normalization_spec.rb:86-125).
  // ---------------------------------------------------------------------

  /** The chain on `http://www.twingly.com<path>`. */
  lemma WwwTwinglyChain(path: string, normalized: string)
    requires NormalizePath(path) == normalized
    ensures Canonicalize(ParsedUrl(Some("http"), "www", "twingly", "com", path, None, None))
      == Some(ParsedUrl(Some("http"), "www", "twingly", "com", normalized, None, None))
  {
    PlainLabels();
    var u := ParsedUrl(Some("http"), "www", "twingly", "com", path, None, None);
    FoldedOf(u);
    ChainOf(u, u, u, u.(path := normalized));
  }

  /** `http://www.twingly.com` gets the origin slash. */
  lemma OriginSlashAdded()
    ensures NormalizeUrl(Some(ParsedUrl(Some("http"), "www", "twingly", "com", "", None, None)))
      == Some("http://www.twingly.com/")
  {
    OriginPath("");
    WwwTwinglyChain("", "/");
    WwwTwinglyText();
  }

  lemma DoubleOriginPath()
    ensures NormalizePath("//") == "/"
  {
    assert AllSlashes("//");
  }

  /** `http://www.twingly.com//` keeps a single origin slash. */
  lemma OriginSlashSingle()
    ensures NormalizeUrl(Some(ParsedUrl(Some("http"), "www", "twingly", "com", "//", None, None)))
      == Some("http://www.twingly.com/")
  {
    DoubleOriginPath();
    WwwTwinglyChain("//", "/");
    WwwTwinglyText();
  }

  lemma BlogDataPath()
    ensures NormalizePath("/blog-data/") == "/blog-data"
  {
    assert "/blog-data/"[1] == 'b';
    assert "/blog-data/"[..10] == "/blog-data";
  }

  lemma BlogDataSpelled()
    ensures "http" + "://" + "www.twingly.com" + "/blog-data" + "" == "http://www.twingly.com/blog-data"
  {
  }

  lemma BlogDataText()
    ensures Render(ParsedUrl(Some("http"), "www", "twingly", "com", "/blog-data", None, None))
      == "http://www.twingly.com/blog-data"
  {
    WwwTwinglyHost();
    BlogDataSpelled();
    RenderOf(ParsedUrl(Some("http"), "www", "twingly", "com", "/blog-data", None, None),
      "http", "www.twingly.com", "", "http://www.twingly.com/blog-data");
  }

  /** `http://www.twingly.com/blog-data/` loses its trailing slash. */
  lemma TrailingSlashRemoved()
    ensures NormalizeUrl(Some(ParsedUrl(Some("http"), "www", "twingly", "com", "/blog-data/", None, None)))
      == Some("http://www.twingly.com/blog-data")
  {
    BlogDataPath();
    WwwTwinglyChain("/blog-data/", "/blog-data");
    BlogDataText();
  }

  /** The chain on `www.twingly.com<path>`, given without a scheme. */
  lemma NoSchemeChain(path: string, normalized: string)
    requires NormalizePath(path) == normalized
    ensures Canonicalize(ParsedUrl(None, "www", "twingly", "com", path, None, None))
      == Some(ParsedUrl(Some("http"), "www", "twingly", "com", normalized, None, None))
  {
    SchemeDefaultsToHttp(ParsedUrl(None, "www", "twingly", "com", path, None, None));
    WwwTwinglyChain(path, normalized);
  }

  lemma DoubleSlashPath()
    ensures NormalizePath("/path//") == "/path"
  {
    assert "/path//"[1] == 'p';
    assert "/path//"[..6] == "/path/";
    assert "/path/"[..5] == "/path";
  }

  lemma DoubleSlashSpelled()
    ensures "http" + "://" + "www.twingly.com" + "/path" + "" == "http://www.twingly.com/path"
  {
  }

  lemma DoubleSlashText()
    ensures Render(ParsedUrl(Some("http"), "www", "twingly", "com", "/path", None, None))
      == "http://www.twingly.com/path"
  {
    WwwTwinglyHost();
    DoubleSlashSpelled();
    RenderOf(ParsedUrl(Some("http"), "www", "twingly", "com", "/path", None, None),
      "http", "www.twingly.com", "", "http://www.twingly.com/path");
  }

  /** `www.twingly.com/path//` gets the scheme `http` and loses both
      trailing slashes. */
  lemma DoubleSlashRemoved()
    ensures NormalizeUrl(Some(ParsedUrl(None, "www", "twingly", "com", "/path//", None, None)))
      == Some("http://www.twingly.com/path")
  {
    DoubleSlashPath();
    NoSchemeChain("/path//", "/path");
    DoubleSlashText();
  }

  /** `www.twingly.com/` gets the scheme `http`. */
  lemma SchemeAdded()
    ensures NormalizeUrl(Some(ParsedUrl(None, "www", "twingly", "com", "/", None, None)))
      == Some("http://www.twingly.com/")
  {
    RootPath();
    NoSchemeChain("/", "/");
    WwwTwinglyText();
  }

  /** `http://www.twingly.` has no suffix, so there is no result. */
  lemma MissingSuffixRejected()
    ensures NormalizeUrl(Some(ParsedUrl(Some("http"), "www", "twingly", "", "", None, None))) == None
  {
  }

  // ---------------------------------------------------------------------
  // The blogspot rule (spec/lib/twingly/url/normalization_spec.rb:133-151).
  // ---------------------------------------------------------------------

  lemma BlogspotStrip()
    ensures StripWww("www.jlchen1026") == "jlchen1026"
    ensures StripWww("jlchen1026") == "jlchen1026"
  {
    assert "www.jlchen1026"[..4] == "www.";
    assert "www.jlchen1026"[4..] == "jlchen1026";
    assert "jlchen1026"[..4] == "jlch";
  }

  /** The chain on a blogspot host, from the host after folding. */
  lemma BlogspotChain(u: ParsedUrl, f: ParsedUrl)
    requires u.suffix != "" && CaseFold(u) == f
    requires f == ParsedUrl(Some("http"), f.subdomain, "blogspot", f.suffix, "/", None, None)
    requires f.subdomain == "jlchen1026" || f.subdomain == "www.jlchen1026"
    ensures Canonicalize(u)
      == Some(ParsedUrl(Some("http"), "jlchen1026", "blogspot", "com", "/", None, None))
  {
    BlogspotStrip();
    RootPath();
    ChainOf(u, f, ParsedUrl(Some("http"), "jlchen1026", "blogspot", "com", "/", None, None),
      ParsedUrl(Some("http"), "jlchen1026", "blogspot", "com", "/", None, None));
  }

  lemma BlogspotSpelled()
    ensures "http" + "://" + "jlchen1026.blogspot.com" + "/" + "" == "http://jlchen1026.blogspot.com/"
  {
  }

  lemma BlogspotText()
    ensures Render(ParsedUrl(Some("http"), "jlchen1026", "blogspot", "com", "/", None, None))
      == "http://jlchen1026.blogspot.com/"
  {
    BlogspotHost();
    BlogspotSpelled();
    RenderOf(ParsedUrl(Some("http"), "jlchen1026", "blogspot", "com", "/", None, None),
      "http", "jlchen1026.blogspot.com", "", "http://jlchen1026.blogspot.com/");
  }

  /** `http://jlchen1026.blogspot.com/` does not gain `www`. */
  lemma BlogspotNoWwwAdded()
    ensures NormalizeUrl(Some(ParsedUrl(Some("http"), "jlchen1026", "blogspot", "com", "/", None, None)))
      == Some("http://jlchen1026.blogspot.com/")
  {
    var u := ParsedUrl(Some("http"), "jlchen1026", "blogspot", "com", "/", None, None);
    PlainLabels();
    FoldedOf(u);
    BlogspotChain(u, u);
    BlogspotText();
  }

  /** `http://www.jlchen1026.blogspot.com/` loses its `www`. */
  lemma BlogspotWwwRemoved()
    ensures NormalizeUrl(Some(ParsedUrl(Some("http"), "www.jlchen1026", "blogspot", "com", "/", None, None)))
      == Some("http://jlchen1026.blogspot.com/")
  {
    var u := ParsedUrl(Some("http"), "www.jlchen1026", "blogspot", "com", "/", None, None);
    PlainLabels();
    FoldedOf(u);
    BlogspotChain(u, u);
    BlogspotText();
  }

  /** `http://WWW.jlchen1026.blogspot.CO.UK/` becomes
      `http://jlchen1026.blogspot.com/`. */
  lemma BlogspotSuffixRewritten()
    ensures NormalizeUrl(Some(ParsedUrl(Some("http"), "WWW.jlchen1026", "blogspot", "CO.UK", "/", None, None)))
      == Some("http://jlchen1026.blogspot.com/")
  {
    var u := ParsedUrl(Some("http"), "WWW.jlchen1026", "blogspot", "CO.UK", "/", None, None);
    PlainFolds();
    UpperBlogspotFolds();
    FoldOf(u, "http", "www.jlchen1026", "blogspot", "co.uk");
    BlogspotChain(u, ParsedUrl(Some("http"), "www.jlchen1026", "blogspot", "co.uk", "/", None, None));
    BlogspotText();
  }

  lemma UpperBlogspotFolds()
    ensures Lower("WWW.jlchen1026") == "www.jlchen1026"
    ensures Lower("CO.UK") == "co.uk"
  {
    UpperWwwDotFold();
    PlainSubdomainFold();
    UpperBlogspotSpelled();
    LowerOfJoined("WWW.", "jlchen1026", "www.", "jlchen1026");
    UpperSuffixFold();
  }

  /** Folding a joined string, from the folds of its two parts. */
  lemma LowerOfJoined(a: string, b: string, la: string, lb: string)
    requires Lower(a) == la && Lower(b) == lb
    ensures Lower(a + b) == la + lb
  {
    LowerAppend(a, b);
  }

  lemma PlainSubdomainFold()
    ensures Lower("jlchen1026") == "jlchen1026"
  {
    PlainLabels();
    LowerFixedIff("jlchen1026");
  }

  lemma UpperBlogspotSpelled()
    ensures "WWW." + "jlchen1026" == "WWW.jlchen1026"
    ensures "www." + "jlchen1026" == "www.jlchen1026"
  {
  }

  lemma UpperSuffixFold()
    ensures Lower("CO.UK") == "co.uk"
  {
    var t := Lower("CO.UK");
    assert t[0] == 'c' && t[1] == 'o' && t[2] == '.' && t[3] == 'u' && t[4] == 'k';
  }

  lemma UpperWwwDotFold()
    ensures Lower("WWW.") == "www."
  {
    var t := Lower("WWW.");
    assert t[0] == 'w' && t[1] == 'w' && t[2] == 'w' && t[3] == '.';
  }

  // ---------------------------------------------------------------------
  // Case (spec/lib/twingly/url/normalization_spec.rb:153-177).
  // ---------------------------------------------------------------------

  /** Folding, label by label. */
  lemma FoldOf(u: ParsedUrl, scheme: string, subdomain: string, domain: string, suffix: string)
    requires Lower(u.scheme.GetOr(DefaultScheme)) == scheme
    requires Lower(u.subdomain) == subdomain && Lower(u.domain) == domain && Lower(u.suffix) == suffix
    ensures CaseFold(u) == u.(scheme := Some(scheme), subdomain := subdomain, domain := domain, suffix := suffix)
  {
  }

  /** The labels that are already in lower case fold to themselves. */
  lemma PlainFolds()
    ensures Lower("http") == "http" && Lower("blogspot") == "blogspot"
    ensures Lower("www") == "www" && Lower("twingly") == "twingly" && Lower("com") == "com"
  {
    PlainLabels();
    LowerFixedIff("http");
    LowerFixedIff("blogspot");
    LowerFixedIff("www");
    LowerFixedIff("twingly");
    LowerFixedIff("com");
  }

  lemma UpperSchemeFold()
    ensures Lower("HTTPS") == "https"
  {
    var t := Lower("HTTPS");
    assert t[0] == 'h' && t[1] == 't' && t[2] == 't' && t[3] == 'p' && t[4] == 's';
  }

  lemma SchemeFoldedSpelled()
    ensures "https" + "://" + "www.twingly.com" + "/" + "" == "https://www.twingly.com/"
  {
  }

  lemma SchemeFoldedText()
    ensures Render(ParsedUrl(Some("https"), "www", "twingly", "com", "/", None, None))
      == "https://www.twingly.com/"
  {
    WwwTwinglyHost();
    SchemeFoldedSpelled();
    RenderOf(ParsedUrl(Some("https"), "www", "twingly", "com", "/", None, None),
      "https", "www.twingly.com", "", "https://www.twingly.com/");
  }

  /** `HTTPS://www.twingly.com/` becomes `https://www.twingly.com/`. */
  lemma SchemeFolded()
    ensures NormalizeUrl(Some(ParsedUrl(Some("HTTPS"), "www", "twingly", "com", "/", None, None)))
      == Some("https://www.twingly.com/")
  {
    var u := ParsedUrl(Some("HTTPS"), "www", "twingly", "com", "/", None, None);
    var c := ParsedUrl(Some("https"), "www", "twingly", "com", "/", None, None);
    PlainFolds();
    UpperSchemeFold();
    FoldOf(u, "https", "www", "twingly", "com");
    RootPath();
    ChainOf(u, c, c, c);
    SchemeFoldedText();
  }

  lemma UpperHostFolds()
    ensures Lower("WWW") == "www"
    ensures Lower("TWINGLY") == "twingly"
    ensures Lower("COM") == "com"
  {
    var a := Lower("WWW");
    assert a[0] == 'w' && a[1] == 'w' && a[2] == 'w';
    var c := Lower("COM");
    assert c[0] == 'c' && c[1] == 'o' && c[2] == 'm';
    UpperDomainFold();
  }

  lemma UpperDomainFold()
    ensures Lower("TWINGLY") == "twingly"
  {
    var b := Lower("TWINGLY");
    assert b[0] == 't' && b[1] == 'w' && b[2] == 'i' && b[3] == 'n' && b[4] == 'g' && b[5] == 'l' && b[6] == 'y';
  }

  /** `http://WWW.TWINGLY.COM/` becomes `http://www.twingly.com/`. */
  lemma HostFolded()
    ensures NormalizeUrl(Some(ParsedUrl(Some("http"), "WWW", "TWINGLY", "COM", "/", None, None)))
      == Some("http://www.twingly.com/")
  {
    var u := ParsedUrl(Some("http"), "WWW", "TWINGLY", "COM", "/", None, None);
    var c := ParsedUrl(Some("http"), "www", "twingly", "com", "/", None, None);
    PlainFolds();
    UpperHostFolds();
    FoldOf(u, "http", "www", "twingly", "com");
    RootPath();
    ChainOf(u, c, c, c);
    WwwTwinglyText();
  }

  lemma MixedCasePath()
    ensures NormalizePath("/PaTH") == "/PaTH"
  {
    assert "/PaTH"[1] == 'P';
  }

  lemma PathCaseSpelled()
    ensures "http" + "://" + "www.twingly.com" + "/PaTH" + "" == "http://www.twingly.com/PaTH"
  {
  }

  lemma PathCaseText()
    ensures Render(ParsedUrl(Some("http"), "www", "twingly", "com", "/PaTH", None, None))
      == "http://www.twingly.com/PaTH"
  {
    WwwTwinglyHost();
    PathCaseSpelled();
    RenderOf(ParsedUrl(Some("http"), "www", "twingly", "com", "/PaTH", None, None),
      "http", "www.twingly.com", "", "http://www.twingly.com/PaTH");
  }

  /** `http://www.twingly.com/PaTH` keeps the case of its path. */
  lemma PathCaseKept()
    ensures NormalizeUrl(Some(ParsedUrl(Some("http"), "www", "twingly", "com", "/PaTH", None, None)))
      == Some("http://www.twingly.com/PaTH")
  {
    MixedCasePath();
    WwwTwinglyChain("/PaTH", "/PaTH");
    PathCaseText();
  }

  lemma FragmentCaseChain()
    ensures Canonicalize(ParsedUrl(Some("http"), "www", "twingly", "com", "/", None, Some("FRAGment")))
      == Some(ParsedUrl(Some("http"), "www", "twingly", "com", "/", None, Some("FRAGment")))
  {
    PlainLabels();
    CanonicalIsFixed(ParsedUrl(Some("http"), "www", "twingly", "com", "/", None, Some("FRAGment")));
  }

  lemma FragmentCaseSpelled()
    ensures "http" + "://" + "www.twingly.com" + "/" + "#FRAGment" == "http://www.twingly.com/#FRAGment"
  {
  }

  lemma FragmentCaseText()
    ensures Render(ParsedUrl(Some("http"), "www", "twingly", "com", "/", None, Some("FRAGment")))
      == "http://www.twingly.com/#FRAGment"
  {
    WwwTwinglyHost();
    FragmentCaseSpelled();
    assert Tail(ParsedUrl(Some("http"), "www", "twingly", "com", "/", None, Some("FRAGment"))) == "#FRAGment";
    RenderOf(ParsedUrl(Some("http"), "www", "twingly", "com", "/", None, Some("FRAGment")),
      "http", "www.twingly.com", "#FRAGment", "http://www.twingly.com/#FRAGment");
  }

  /** `http://www.twingly.com/#FRAGment` keeps the case of its fragment. */
  lemma FragmentCaseKept()
    ensures NormalizeUrl(Some(ParsedUrl(Some("http"), "www", "twingly", "com", "/", None, Some("FRAGment"))))
      == Some("http://www.twingly.com/#FRAGment")
  {
    FragmentCaseChain();
    FragmentCaseText();
  }

  // ---------------------------------------------------------------------
  // Encoded hosts, non-ASCII paths and text that is not a URL
  // (spec/lib/twingly/url/normalization_spec.rb:196-229).
  // ---------------------------------------------------------------------

  lemma EncodedLabels()
    ensures NoUpper("xn--4cab6c") && NoUpper("se") && NoUpper("example") && NoUpper("xn--p1ai")
    ensures NoUpper("aoo")
  {
  }

  lemma UmlautPathChain()
    ensures Canonicalize(ParsedUrl(Some("http"), "www", "aoo", "se", "/öö", None, None))
      == Some(ParsedUrl(Some("http"), "www", "aoo", "se", "/öö", None, None))
  {
    PlainLabels();
    EncodedLabels();
    assert "/öö"[1] == 'ö';
    CanonicalIsFixed(ParsedUrl(Some("http"), "www", "aoo", "se", "/öö", None, None));
  }

  lemma UmlautPathHost()
    ensures JoinHost("www", "aoo", "se") == "www.aoo.se"
  {
  }

  lemma UmlautPathSpelled()
    ensures "http" + "://" + "www.aoo.se" + "/öö" + "" == "http://www.aoo.se/öö"
  {
  }

  lemma UmlautPathText()
    ensures Render(ParsedUrl(Some("http"), "www", "aoo", "se", "/öö", None, None))
      == "http://www.aoo.se/öö"
  {
    UmlautPathHost();
    UmlautPathSpelled();
    RenderOf(ParsedUrl(Some("http"), "www", "aoo", "se", "/öö", None, None),
      "http", "www.aoo.se", "", "http://www.aoo.se/öö");
  }

  /** `http://www.aoo.se/öö` keeps its non-ASCII path. */
  lemma UmlautPathKept()
    ensures NormalizeUrl(Some(ParsedUrl(Some("http"), "www", "aoo", "se", "/öö", None, None)))
      == Some("http://www.aoo.se/öö")
  {
    UmlautPathChain();
    UmlautPathText();
  }

  lemma EncodedSldChain()
    ensures Canonicalize(ParsedUrl(Some("http"), "www", "xn--4cab6c", "se", "/", None, None))
      == Some(ParsedUrl(Some("http"), "www", "xn--4cab6c", "se", "/", None, None))
  {
    PlainLabels();
    EncodedLabels();
    CanonicalIsFixed(ParsedUrl(Some("http"), "www", "xn--4cab6c", "se", "/", None, None));
  }

  lemma EncodedSldHost()
    ensures JoinHost("www", "xn--4cab6c", "se") == "www.xn--4cab6c.se"
  {
  }

  lemma EncodedSldSpelled()
    ensures "http" + "://" + "www.xn--4cab6c.se" + "/" + "" == "http://www.xn--4cab6c.se/"
  {
  }

  lemma EncodedSldText()
    ensures Render(ParsedUrl(Some("http"), "www", "xn--4cab6c", "se", "/", None, None))
      == "http://www.xn--4cab6c.se/"
  {
    EncodedSldHost();
    EncodedSldSpelled();
    RenderOf(ParsedUrl(Some("http"), "www", "xn--4cab6c", "se", "/", None, None),
      "http", "www.xn--4cab6c.se", "", "http://www.xn--4cab6c.se/");
  }

  /** `http://www.xn--4cab6c.se/`, an encoded registrable domain, is left as
      it is. */
  lemma EncodedSldKept()
    ensures NormalizeUrl(Some(ParsedUrl(Some("http"), "www", "xn--4cab6c", "se", "/", None, None)))
      == Some("http://www.xn--4cab6c.se/")
  {
    EncodedSldChain();
    EncodedSldText();
  }

  lemma EncodedTldChain()
    ensures Canonicalize(ParsedUrl(Some("http"), "", "example", "xn--p1ai", "/", None, None))
      == Some(ParsedUrl(Some("http"), "www", "example", "xn--p1ai", "/", None, None))
  {
    PlainLabels();
    EncodedLabels();
    assert NoUpper("");
    FoldedOf(ParsedUrl(Some("http"), "", "example", "xn--p1ai", "/", None, None));
    RootPath();
    ChainOf(ParsedUrl(Some("http"), "", "example", "xn--p1ai", "/", None, None),
      ParsedUrl(Some("http"), "", "example", "xn--p1ai", "/", None, None),
      ParsedUrl(Some("http"), "www", "example", "xn--p1ai", "/", None, None),
      ParsedUrl(Some("http"), "www", "example", "xn--p1ai", "/", None, None));
  }

  lemma EncodedTldHost()
    ensures JoinHost("www", "example", "xn--p1ai") == "www.example.xn--p1ai"
  {
  }

  lemma EncodedTldSpelled()
    ensures "http" + "://" + "www.example.xn--p1ai" + "/" + "" == "http://www.example.xn--p1ai/"
  {
  }

  lemma EncodedTldText()
    ensures Render(ParsedUrl(Some("http"), "www", "example", "xn--p1ai", "/", None, None))
      == "http://www.example.xn--p1ai/"
  {
    EncodedTldHost();
    EncodedTldSpelled();
    RenderOf(ParsedUrl(Some("http"), "www", "example", "xn--p1ai", "/", None, None),
      "http", "www.example.xn--p1ai", "", "http://www.example.xn--p1ai/");
  }

  /** `http://example.xn--p1ai/`, under an encoded suffix, gains `www`. */
  lemma EncodedTldGainsWww()
    ensures NormalizeUrl(Some(ParsedUrl(Some("http"), "", "example", "xn--p1ai", "/", None, None)))
      == Some("http://www.example.xn--p1ai/")
  {
    EncodedTldChain();
    EncodedTldText();
  }

  /** `Just some text` does not parse as a URL, so there is no result. */
  lemma NotAUrlRejected()
    ensures NormalizeUrl(None) == None
  {
  }
}
